=== FILE: README.md ===
# Vehicle-service marketplace backend: handlers over a relational store

This project models the request handlers of a small marketplace backend. Users
register as customers or mechanics. Customers register vehicles, mechanics
publish services, and customers book a mechanic's service for a vehicle.

All durable state lives in four tables: `users`, `vehicles`, `services` and
`service_users` (the bookings). Each table is an `IdTable`: a map from id to
record plus the autoincrement counter that hands out fresh ids, starting at 1.
The tables are fields of the class `Db.Store`, which stands for the database
session. Its `Commit*` methods are all-or-nothing writes.

Each handler takes the authenticated principal's id as a parameter and an
abstract request, a record of optional fields. Python truthiness is explicit:
an absent field, the empty string and the number 0 are all falsy. Every
handler returns a `Response`, which is a status code plus a payload.

- Write handlers are methods that `modify` the store: `Register`, `UpdateUser`,
  `CreateVehicle`, `AddService` and `AddServiceUser`. Each one runs its guard
  chain in the source's order with early returns. A failed request leaves every
  table unchanged. A successful one adds exactly one row, or rewrites exactly
  one user, and leaves the other tables as they were.
- Read handlers are functions of the tables they query: `Login`, `GetMe`,
  `GetVehicles`, `GetServices`, `GetServiceUsers` and
  `GetMechanicServiceRequests`. `GetAllServices` is a method, because the
  source builds its result with a loop.
- Every filtered query (`filter_by`, `first()`, the joins) is `Db.Select`: the
  ids whose rows pass a filter, each id once, in ascending order. A
  `Query.get` is a key lookup: `Db.Get`, or a key test on the table's map. A join is an inner join, so a row is listed only when
  every joined record exists. This matters because nothing checks that the
  principal is a stored user when a service or booking is inserted.
- `Store.Valid` is the invariant that every write handler keeps. Every booking
  refers to a stored service and a stored vehicle, and no two bookings share
  the triple (service, vehicle, requester).
- The password hash is an ideal-hash stand-in, `PasswordHash`, which keeps the
  password it was made from. Only `CheckPasswordHash` reads it, and that check
  holds exactly for that password. A token is an opaque `AccessToken` that
  resolves back to the user id it was issued for. The clock becomes a `Timestamp` parameter.

Some behaviours of the code a reader might not expect:

- `/service_user/all` lists only the caller's own bookings.
- A booking is accepted for any vehicle id, whoever owns the vehicle.
- Register checks for missing fields before duplicate e-mails, so a duplicate
  e-mail with a missing field gets "Missing fields".
- The duplicate-booking error is 400 "Service user already exists".
- The 404 of `/service_user/my_requests` uses the key `message`, not `msg`.
  `Body.Message` models that key.

## Model

| member | source | states |
|---|---|---|
| `Records.GeneratePasswordHash` | auth.py:24 | the stored credential passes the hash check for the supplied password and for no other password |
| `Text.Decimal` | auth.py:83 | `str()` of an id is a non-empty run of decimal digits with no leading zero |
| `Text.ParseDecimal` | auth.py:87 | parsing the decimal text of an id gives back that id (`int(str(n)) == n`) |
| `Text.ParseInt` | cars.py:23 | `int()` of a string accepts exactly an optional '+' or '-' followed by one or more digits; a non-digit anywhere after the optional sign makes it fail; the value is that of the digits after the sign, negated after a '-' |
| `Text.ParseNegativeDecimal` | cars.py:23 | a '-' followed by the digits of n parses to -n |
| `Text.ParsePlusDecimal` | cars.py:23 | a '+' followed by the digits of n parses to n |
| `Text.DecimalInjective` | auth.py:83 | two ids have the same decimal text only if they are equal, so the string comparison in `update_user` is an id comparison |
| `Db.Insert` | auth.py:28-29 | an insert gives the new row the counter's id, which no stored row holds; it keeps every old row and advances the counter |
| `Db.Get` | services.py:74-75 | `Query.get` on a request id finds a row exactly when the id is a stored key, and returns that row |
| `Db.SelectBelow` | cars.py:56 | the filtered ids below a bound: each passes the filter, every passing id is present, in ascending order |
| `Db.Select` | services.py:36 | a filtered query returns exactly the stored ids whose rows pass the filter, each once, in ascending order |
| `Db.Store.constructor` | app.py:35 | the store starts with four empty tables and satisfies the booking invariant |
| `Db.Store.CommitUser` | auth.py:28-29 | adds exactly one user under a fresh id; the other tables are unchanged |
| `Db.Store.CommitUserUpdate` | auth.py:103 | rewrites exactly one stored user; the other tables are unchanged |
| `Db.Store.CommitVehicle` | cars.py:44-45 | adds exactly one vehicle under a fresh id; the other tables are unchanged |
| `Db.Store.CommitService` | services.py:23-24 | adds exactly one service under a fresh id; the other tables are unchanged |
| `Db.Store.CommitBooking` | services.py:89-95 | a booking whose (service, vehicle, requester) triple is already stored is rolled back with nothing added; any other booking is added under a fresh id; no two bookings ever share a triple |
| `Auth.NewUser` | auth.py:24-27 | the registered row holds the given name, email, role and location, and a hash that checks only against the given password |
| `Auth.UserByEmail` | auth.py:19 | `first()` by e-mail finds nothing exactly when no user has that e-mail; otherwise it finds the user with that e-mail and the lowest id |
| `Auth.Register` | auth.py:11-31 | missing field gives 400 "Missing fields"; a used e-mail gives 400 "User already exists"; both leave the store unchanged; otherwise 201 and exactly one new user row, with the other tables unchanged |
| `Auth.RegisterTwice` | auth.py:19-21 | after a successful registration, registering the same e-mail again is refused with "User already exists", and only one user row is added |
| `Auth.Login` | auth.py:36-58 | missing email or password gives 400; 200 holds exactly when the first user with that e-mail passes the hash check, and otherwise the answer is 401; on 200 the token resolves to that user and the profile holds id, name, role, email and location, without the hash |
| `Auth.RegisterThenLogin` | auth.py:24-58 | a user registered under an unused e-mail logs in with the same credentials and receives a token for the new id and its profile |
| `Auth.RegisterKeepsEmailsUnique` | auth.py:19-29 | if no two users share an e-mail before a successful registration, none do after it |
| `Auth.RegisterThenWrongPassword` | auth.py:44-46 | after that registration, any other non-empty password gets 401 |
| `Auth.GetMe` | auth.py:64-72 | 200 with the principal's name and email exactly when the principal's id is a stored user, otherwise 404 "User not found" |
| `Auth.Updated` | auth.py:94-100 | name, email and location are replaced only when supplied non-empty; role and password hash are kept |
| `Auth.UpdateUser` | auth.py:76-113 | the checks run in order: missing user_id gives 400, a user_id that is not the principal's decimal id gives 403, a missing user gives 404, and each failure leaves the store unchanged; success rewrites only the principal's row and returns its new profile |
| `Cars.FirstUnprovided` | cars.py:16-19 | the index of the first required field that is missing or falsy: every earlier field is provided and that one is not |
| `Cars.FirstMissing` | cars.py:17-19 | the validation loop returns None exactly when every required field is provided; otherwise it returns the name of the first one that is missing or falsy |
| `Cars.ParseYear` | cars.py:23-28 | `int(year)` keeps an integer as it is and parses a string as `int()` of that string, so it can fail only on a string: a run of digits gives its decimal value, and a non-digit after the optional sign gives the "Invalid input data format" path |
| `Cars.CreateVehicle` | cars.py:12-47 | the first missing field is reported by name with 400; a year that does not parse gives 400 "Invalid input data format"; both leave the store unchanged; otherwise 201 and exactly one new vehicle owned by the principal, storing the parsed year |
| `Cars.GetVehicles` | cars.py:51-72 | lists exactly the principal's vehicles, each projected without its owner id, once each, in id order |
| `Services.AddService` | services.py:10-28 | a missing or falsy name or cost (cost 0 included) gives 400 "Missing fields"; a failed commit gives 500; both leave the store unchanged; otherwise 201 and exactly one new service published by the principal |
| `Services.GetServices` | services.py:32-37 | lists exactly the services the principal published, none published by anyone else, once each |
| `Services.GetAllServices` | services.py:40-57 | one row per service whose publisher exists, in id order; each row's user fields are those of the service's publisher |
| `Services.AddServiceUser` | services.py:63-95 | a missing id gives 400 before any lookup; a missing service gives 404 "Service not found" whatever in-range vehicle id; then a missing vehicle gives 404 "Vehicle not found"; a duplicate triple gives 400 "Service user already exists"; every failure leaves the store unchanged; otherwise exactly one booking by the principal, with no ownership check on the vehicle |
| `Services.BookTwice` | services.py:83-95 | repeating a successful booking request is refused with "Service user already exists", and only one row is added |
| `Services.GetServiceUsers` | services.py:99-127 | lists only bookings requested by the principal, a row for each such booking whose joins exist, and, while no booking triple is stored twice, no two rows for the same service and vehicle; the mechanic fields come from the publisher of the booked service |
| `Services.RequestRows` | services.py:145-167 | the bookings of the given service ids, joined with service, vehicle and requester: each listed once, in id order, with the customer fields taken from the requester |
| `Services.GetMechanicServiceRequests` | services.py:132-169 | 404 "No services found for this mechanic" exactly when the principal publishes no service; otherwise exactly the bookings of the principal's services whose vehicle and requester exist, with customer fields from the requester |

## Left out

- HTTP plumbing is outside the model: the Flask app, blueprints and URL prefixes, CORS, `jsonify` and `make_response`. Requests are records of optional fields and responses are a status plus payload.
- JWT issuance and verification are outside the model. The principal id is a parameter, and a token is an opaque value naming the user id.
- Password hashing is outside the model. The salt is a parameter, and the hash is an ideal-hash stand-in that keeps the password and is read only by `CheckPasswordHash`, which holds exactly for the matching password.
- The text of the storage exception returned by `add_service` is not modelled; that response is `InternalError`.
- `AddService`: whether the commit fails is a parameter, because the model does not compute storage failures.
- A commit failure in `register`, `update_user` or `create_vehicle` is not modelled, because the source does not catch it. Neither is a commit failure in `add_service_user` other than the uniqueness violation, because the source catches only `IntegrityError` there.
- The schema in `models.py` is not part of this model. The booking uniqueness rule is modelled on the (service, vehicle, requester) triple. No uniqueness is assumed for e-mails, so `update_user` can give two users the same e-mail, and `first()` then returns the lowest id. No foreign key is checked on the principal id.
- `Service.to_dict()` is defined in `models.py`, which is not part of this model. `get_services` returns each service's id and stored record.
- SQL returns rows in no defined order. The model fixes ascending id order for every listing, including the joins, whose real order depends on the query plan.
- `Text.ParseInt` models Python's `int()` on strings only as an optional sign followed by ASCII digits. It does not model surrounding whitespace, underscores or non-ASCII digits. Floats and booleans passed as the year are not modelled.
- `Db.Get` / `Services.AddServiceUser`: ids are unbounded integers. SQLite's INTEGER is signed 64-bit, so a request id outside [-2^63, 2^63-1] makes `Query.get` raise while binding the parameter, and the uncaught error answers 500 with nothing stored. That path is not modelled: for such an id the model answers as for any unstored id, for example 404 "Service not found".
- `Cars.CreateVehicle`: the year is an unbounded integer. A year outside SQLite's 64-bit range makes the commit raise in the source, but the model answers 201.
- `Services.AddService`: `cost` is modelled as an integer. The source accepts any truthy JSON value, for example 49.99, and floats and strings as cost are not modelled.
- Request ids (`service_id`, `vehicle_id`) are modelled as JSON integers. A numeric string id would be coerced by SQLite, and that is not modelled.
- Concurrency is out of scope: the double-booking race and transaction isolation. Each handler runs alone.
- Creation timestamps and generated ids are modelled only as opaque values and fresh counter values.

=== FILE: auth.dfy ===
/**
 * The identity handlers: registration, login, the current user's summary
 * and the self-only partial profile update.
 */
module Auth {
  import opened Records
  import opened Text
  import opened Db

  datatype RegisterRequest = RegisterRequest(
    name: Option<string>, email: Option<string>, password: Option<string>,
    location: Option<string>, role: Option<string>)

  datatype LoginRequest = LoginRequest(email: Option<string>, password: Option<string>)

  /** The user_id query parameter and the JSON body of a profile update. */
  datatype UpdateRequest = UpdateRequest(
    userIdParam: Option<string>, name: Option<string>, email: Option<string>, location: Option<string>)

  predicate RegisterFieldsGiven(req: RegisterRequest)
  {
    Truthy(req.name) && Truthy(req.email) && Truthy(req.password)
    && Truthy(req.location) && Truthy(req.role)
  }

  /** The row a registration stores: the supplied fields, with the password replaced by its hash. */
  function NewUser(req: RegisterRequest, salt: nat): (u: User)
    requires RegisterFieldsGiven(req)
    ensures u.name == req.name.value && u.email == req.email.value
    ensures u.role == req.role.value && u.location == req.location.value
    ensures forall candidate :: CheckPasswordHash(u.password, candidate) <==> candidate == req.password.value
  {
    User(req.name.value, req.email.value, GeneratePasswordHash(req.password.value, salt),
         req.role.value, req.location.value)
  }

  /** User.query.filter_by(email=...).first(): the user with that e-mail and the lowest id. */
  function UserByEmail(users: IdTable<User>, email: string): (found: Option<nat>)
    ensures found.None? <==> forall k :: k in users.rows ==> users.rows[k].email != email
    ensures found.Some? ==> found.value in users.rows && users.rows[found.value].email == email
    ensures found.Some? ==>
      forall k :: k in users.rows && users.rows[k].email == email ==> found.value <= k
  {
    var ids := Select(users, (k: nat, u: User) => u.email == email);
    if ids == [] then None else Some(ids[0])
  }

  /** The profile a handler returns: everything except the password hash. */
  function ProfileOf(id: nat, u: User): Profile
  {
    Profile(id, u.name, u.role, u.email, u.location)
  }

  method Register(db: Store, req: RegisterRequest, salt: nat) returns (r: Response)
    requires db.Valid()
    modifies db
    ensures db.Valid()
    ensures !RegisterFieldsGiven(req) ==>
      r == Response(400, Msg("Missing fields")) && unchanged(db)
    ensures RegisterFieldsGiven(req) && UserByEmail(old(db.users), req.email.value).Some? ==>
      r == Response(400, Msg("User already exists")) && unchanged(db)
    ensures RegisterFieldsGiven(req) && UserByEmail(old(db.users), req.email.value).None? ==>
      && r == Response(201, Msg("User created successfully"))
      && db.users == Insert(old(db.users), NewUser(req, salt))
      && db.vehicles == old(db.vehicles) && db.services == old(db.services)
      && db.bookings == old(db.bookings)
  {
    if !RegisterFieldsGiven(req) {
      return Response(400, Msg("Missing fields"));
    }
    if UserByEmail(db.users, req.email.value).Some? {
      return Response(400, Msg("User already exists"));
    }
    var _ := db.CommitUser(NewUser(req, salt));
    r := Response(201, Msg("User created successfully"));
  }

  function Login(users: IdTable<User>, req: LoginRequest): (r: Response)
    ensures !Truthy(req.email) || !Truthy(req.password) ==> r == Response(400, Msg("Missing fields"))
    ensures r.status == 200 <==>
      && Truthy(req.email) && Truthy(req.password)
      && var found := UserByEmail(users, req.email.value);
         found.Some? && CheckPasswordHash(users.rows[found.value].password, req.password.value)
    ensures r.status != 200 && Truthy(req.email) && Truthy(req.password) ==>
      r == Response(401, Msg("Invalid email or password"))
    ensures r.status == 200 ==>
      && r.body.LoggedIn?
      && var id := r.body.accessToken.identity;
         && id in users.rows && users.rows[id].email == req.email.value
         && CheckPasswordHash(users.rows[id].password, req.password.value)
         && r.body.user == ProfileOf(id, users.rows[id])
    ensures r.status == 200 ==>
      r.body.accessToken.identity == UserByEmail(users, req.email.value).value
  {
    if !Truthy(req.email) || !Truthy(req.password) then
      Response(400, Msg("Missing fields"))
    else
      var found := UserByEmail(users, req.email.value);
      if found.None? || !CheckPasswordHash(users.rows[found.value].password, req.password.value) then
        Response(401, Msg("Invalid email or password"))
      else
        var id := found.value;
        Response(200, LoggedIn(AccessToken(id), ProfileOf(id, users.rows[id])))
  }

  /** A user registered under an unused e-mail can log in with the same credentials. */
  lemma RegisterThenLogin(users: IdTable<User>, req: RegisterRequest, salt: nat)
    requires RegisterFieldsGiven(req)
    requires UserByEmail(users, req.email.value).None?
    ensures
      var after := Insert(users, NewUser(req, salt));
      Login(after, LoginRequest(req.email, req.password))
        == Response(200, LoggedIn(AccessToken(users.next), ProfileOf(users.next, NewUser(req, salt))))
  {
  }

  /** After that registration, any other password is refused. */
  lemma RegisterThenWrongPassword(users: IdTable<User>, req: RegisterRequest, salt: nat, wrong: string)
    requires RegisterFieldsGiven(req)
    requires UserByEmail(users, req.email.value).None?
    requires wrong != "" && wrong != req.password.value
    ensures
      var after := Insert(users, NewUser(req, salt));
      Login(after, LoginRequest(req.email, Some(wrong))) == Response(401, Msg("Invalid email or password"))
  {
  }

  /** No two users share an e-mail. */
  ghost predicate UniqueEmails(users: IdTable<User>)
  {
    forall k1, k2 :: k1 in users.rows && k2 in users.rows && k1 != k2 ==>
      users.rows[k1].email != users.rows[k2].email
  }

  /** Registration only ever adds an e-mail nobody holds, so it keeps e-mails unique. */
  lemma RegisterKeepsEmailsUnique(users: IdTable<User>, req: RegisterRequest, salt: nat)
    requires UniqueEmails(users)
    requires RegisterFieldsGiven(req) && UserByEmail(users, req.email.value).None?
    ensures UniqueEmails(Insert(users, NewUser(req, salt)))
  {
  }

  function GetMe(users: IdTable<User>, principal: nat): (r: Response)
    ensures r.status == 200 <==> principal in users.rows
    ensures principal in users.rows ==>
      r.body == Me(users.rows[principal].name, users.rows[principal].email)
    ensures principal !in users.rows ==> r == Response(404, Msg("User not found"))
  {
    if principal in users.rows then
      Response(200, Me(users.rows[principal].name, users.rows[principal].email))
    else
      Response(404, Msg("User not found"))
  }

  /** The user after a partial update: each of name, email, location is replaced only when supplied non-empty. */
  function Updated(u: User, req: UpdateRequest): (v: User)
    ensures v.name == (if Truthy(req.name) then req.name.value else u.name)
    ensures v.email == (if Truthy(req.email) then req.email.value else u.email)
    ensures v.location == (if Truthy(req.location) then req.location.value else u.location)
    ensures v.role == u.role && v.password == u.password
  {
    var u1 := if Truthy(req.name) then u.(name := req.name.value) else u;
    var u2 := if Truthy(req.email) then u1.(email := req.email.value) else u1;
    if Truthy(req.location) then u2.(location := req.location.value) else u2
  }

  method UpdateUser(db: Store, principal: nat, req: UpdateRequest) returns (r: Response)
    requires db.Valid()
    modifies db
    ensures db.Valid()
    ensures !Truthy(req.userIdParam) ==>
      r == Response(400, Msg("User ID is required as a query parameter")) && unchanged(db)
    ensures Truthy(req.userIdParam) && req.userIdParam.value != Decimal(principal) ==>
      r == Response(403, Msg("Unauthorized to update this user's information")) && unchanged(db)
    ensures (Truthy(req.userIdParam) && req.userIdParam.value == Decimal(principal)
             && principal !in old(db.users.rows)) ==>
      r == Response(404, Msg("User not found")) && unchanged(db)
    ensures r.status == 200 ==> req.userIdParam == Some(Decimal(principal))
    ensures (Truthy(req.userIdParam) && req.userIdParam.value == Decimal(principal)
             && principal in old(db.users.rows)) ==>
      var u := Updated(old(db.users.rows[principal]), req);
      && r == Response(200, UpdatedUser(ProfileOf(principal, u)))
      && db.users == old(db.users.(rows := db.users.rows[principal := u]))
      && db.vehicles == old(db.vehicles) && db.services == old(db.services)
      && db.bookings == old(db.bookings)
  {
    if !Truthy(req.userIdParam) {
      return Response(400, Msg("User ID is required as a query parameter"));
    }
    // The comparison is between the decimal text of the principal's id and the raw parameter.
    if Decimal(principal) != req.userIdParam.value {
      return Response(403, Msg("Unauthorized to update this user's information"));
    }
    // The parameter is then the principal's id printed in decimal, so the lookup finds the principal.
    ParseDecimal(principal);
    var key := ParseInt(req.userIdParam.value).value as nat;
    if key !in db.users.rows {
      return Response(404, Msg("User not found"));
    }
    var u := Updated(db.users.rows[key], req);
    db.CommitUserUpdate(key, u);
    r := Response(200, UpdatedUser(ProfileOf(key, u)));
  }

  /** Registering the same e-mail twice: the second attempt is refused and stores nothing. */
  method RegisterTwice(db: Store, req: RegisterRequest, again: RegisterRequest, salt1: nat, salt2: nat)
    returns (first: Response, second: Response)
    requires db.Valid()
    requires again.email == req.email
    modifies db
    ensures db.Valid()
    ensures first.status == 201 && RegisterFieldsGiven(again) ==>
      second == Response(400, Msg("User already exists"))
    ensures first.status == 201 ==>
      RegisterFieldsGiven(req) && old(UserByEmail(db.users, req.email.value)).None?
    ensures first.status == 201 && RegisterFieldsGiven(again) ==>
      |db.users.rows| == |old(db.users.rows)| + 1
  {
    first := Register(db, req, salt1);
    ghost var afterFirst := db.users;
    if first.status == 201 {
      assert db.users.rows[old(db.users.next)].email == req.email.value;
      assert |afterFirst.rows| == |old(db.users.rows)| + 1;
    }
    second := Register(db, again, salt2);
  }
}

=== FILE: cars.dfy ===
/**
 * The vehicle registry: creating a vehicle owned by the principal and
 * listing the principal's own vehicles.
 */
module Cars {
  import opened Records
  import opened Text
  import opened Db

  datatype VehicleRequest = VehicleRequest(
    make: Option<string>, model: Option<string>, year: Option<Scalar>,
    registration: Option<string>, transmission: Option<string>, fuelType: Option<string>)

  /** The required fields, in the order they are checked. */
  const RequiredFields: seq<string> := ["make", "model", "year", "registration", "transmission", "fuel_type"]

  /** data.get(field) is truthy; a key the request type does not carry reads as absent. */
  predicate Provided(req: VehicleRequest, field: string)
  {
    if field == "make" then Truthy(req.make)
    else if field == "model" then Truthy(req.model)
    else if field == "year" then TruthyScalar(req.year)
    else if field == "registration" then Truthy(req.registration)
    else if field == "transmission" then Truthy(req.transmission)
    else if field == "fuel_type" then Truthy(req.fuelType)
    else false
  }

  /** The index of the first field not provided, or |fields| when every field is provided. */
  function FirstUnprovided(req: VehicleRequest, fields: seq<string>): (i: nat)
    ensures i <= |fields|
    ensures forall j :: 0 <= j < i ==> Provided(req, fields[j])
    ensures i < |fields| ==> !Provided(req, fields[i])
    decreases |fields|
  {
    if fields == [] then 0
    else if !Provided(req, fields[0]) then 0
    else 1 + FirstUnprovided(req, fields[1..])
  }

  /** The validation loop: returns the name of the first required field that is missing or falsy. */
  method FirstMissing(req: VehicleRequest, fields: seq<string>) returns (missing: Option<string>)
    ensures missing.None? <==> forall j :: 0 <= j < |fields| ==> Provided(req, fields[j])
    ensures missing.Some? ==>
      var i := FirstUnprovided(req, fields);
      i < |fields| && missing.value == fields[i]
  {
    var i := 0;
    while i < |fields|
      invariant 0 <= i <= |fields|
      invariant forall j :: 0 <= j < i ==> Provided(req, fields[j])
      invariant i <= FirstUnprovided(req, fields)
    {
      if !Provided(req, fields[i]) {
        return Some(fields[i]);
      }
      i := i + 1;
    }
    return None;
  }

  /** int(year): a string is parsed as a decimal integer, an integer is taken as it is. */
  function ParseYear(year: Scalar): (r: Option<int>)
    ensures year.Int? ==> r == Some(year.number)
    ensures year.Str? ==> r == ParseInt(year.text)
    // The remaining clauses follow from the two above and ParseInt's contract, spelled out for the reader.
    ensures r.None? <==> year.Str? && ParseInt(year.text).None?
    ensures year.Str? && year.text != [] && AllDigits(year.text) ==> r == Some(DigitsValue(year.text))
    ensures forall i :: year.Str? && SignLength(year.text) <= i < |year.text| && !IsDigit(year.text[i]) ==> r.None?
  {
    match year
    case Str(s) => ParseInt(s)
    case Int(n) => Some(n)
  }

  /** The row a successful request stores, owned by the principal. */
  function NewVehicle(req: VehicleRequest, year: int, principal: nat): Vehicle
    requires forall j :: 0 <= j < |RequiredFields| ==> Provided(req, RequiredFields[j])
  {
    assert Provided(req, RequiredFields[0]) && Provided(req, RequiredFields[1]);
    assert Provided(req, RequiredFields[3]) && Provided(req, RequiredFields[4]);
    assert Provided(req, RequiredFields[5]);
    Vehicle(req.make.value, req.model.value, year, req.registration.value,
            req.transmission.value, req.fuelType.value, principal)
  }

  method CreateVehicle(db: Store, principal: nat, req: VehicleRequest) returns (r: Response)
    requires db.Valid()
    modifies db
    ensures db.Valid()
    ensures
      var i := FirstUnprovided(req, RequiredFields);
      i < |RequiredFields| ==>
        r == Response(400, Msg("Missing field: " + RequiredFields[i])) && unchanged(db)
    ensures FirstUnprovided(req, RequiredFields) == |RequiredFields| && ParseYear(req.year.value).None? ==>
      r == Response(400, Msg("Invalid input data format")) && unchanged(db)
    ensures FirstUnprovided(req, RequiredFields) == |RequiredFields| && ParseYear(req.year.value).Some? ==>
      && r == Response(201, Msg("Vehicle created successfully"))
      && db.vehicles == Insert(old(db.vehicles), NewVehicle(req, ParseYear(req.year.value).value, principal))
      && db.users == old(db.users) && db.services == old(db.services) && db.bookings == old(db.bookings)
  {
    var missing := FirstMissing(req, RequiredFields);
    if missing.Some? {
      return Response(400, Msg("Missing field: " + missing.value));
    }
    assert Provided(req, RequiredFields[2]);
    var year := ParseYear(req.year.value);
    if year.None? {
      return Response(400, Msg("Invalid input data format"));
    }
    var _ := db.CommitVehicle(NewVehicle(req, year.value, principal));
    r := Response(201, Msg("Vehicle created successfully"));
  }

  /** The listing entry for a vehicle: every field except the owner. */
  function VehicleRowOf(id: nat, v: Vehicle): VehicleRow
  {
    VehicleRow(id, v.make, v.model, v.year, v.registration, v.transmission, v.fuelType)
  }

  function GetVehicles(vehicles: IdTable<Vehicle>, principal: nat): (r: Response)
    ensures r.status == 200 && r.body.VehicleList?
    ensures var rows := r.body.vehicles;
      forall i :: 0 <= i < |rows| ==>
        && rows[i].id in vehicles.rows
        && vehicles.rows[rows[i].id].userId == principal
        && rows[i] == VehicleRowOf(rows[i].id, vehicles.rows[rows[i].id])
    ensures var rows := r.body.vehicles;
      forall k :: k in vehicles.rows && vehicles.rows[k].userId == principal ==>
        exists i :: 0 <= i < |rows| && rows[i].id == k
    ensures var rows := r.body.vehicles;
      forall i, j :: 0 <= i < j < |rows| ==> rows[i].id < rows[j].id
  {
    var ids := Select(vehicles, (k: nat, v: Vehicle) => v.userId == principal);
    var rows := seq(|ids|, i requires 0 <= i < |ids| => VehicleRowOf(ids[i], vehicles.rows[ids[i]]));
    assert forall i :: 0 <= i < |ids| ==> rows[i].id == ids[i];
    Response(200, VehicleList(rows))
  }
}

=== FILE: records.dfy ===
/**
 * The values the marketplace handlers exchange: the stored records of the four
 * tables (users, vehicles, services, service_users), the request bodies as
 * records of optional fields, and the responses as a status code plus payload.
 */
module Records {

  datatype Option<+T> = None | Some(value: T)

  /** A JSON scalar a request may carry where the handler converts it (the vehicle year). */
  datatype Scalar = Str(text: string) | Int(number: int)

  // Python truthiness of an optional request field: an absent field (None),
  // the empty string and the number 0 are all falsy.

  predicate Truthy(field: Option<string>)
  {
    field.Some? && field.value != ""
  }

  predicate TruthyInt(field: Option<int>)
  {
    field.Some? && field.value != 0
  }

  predicate TruthyScalar(field: Option<Scalar>)
  {
    match field
    case None => false
    case Some(Str(s)) => s != ""
    case Some(Int(n)) => n != 0
  }

  /**
   * A salted one-way password hash. The digest is modelled as the value it was
   * computed from; nothing in the model reads it except CheckPasswordHash, so it
   * plays the part of an ideal hash whose check holds exactly for the password
   * it was made from.
   */
  datatype PasswordHash = PasswordHash(salt: nat, digestOf: string)

  function GeneratePasswordHash(password: string, salt: nat): (h: PasswordHash)
    ensures forall candidate :: CheckPasswordHash(h, candidate) <==> candidate == password
  {
    PasswordHash(salt, password)
  }

  predicate CheckPasswordHash(h: PasswordHash, candidate: string)
  {
    h.digestOf == candidate
  }

  /** A bearer token; opaque except that it resolves back to the identity it was issued for. */
  datatype AccessToken = AccessToken(identity: nat)

  /** A server-assigned creation time; the model never inspects it. */
  datatype Timestamp = Timestamp(ticks: int)

  // The stored records. Ids are the keys of the tables (see module Db).

  datatype User = User(name: string, email: string, password: PasswordHash, role: string, location: string)

  datatype Vehicle = Vehicle(
    make: string, model: string, year: int, registration: string,
    transmission: string, fuelType: string, userId: nat)

  /** A service offering; userId is its publisher (the mechanic). */
  datatype Service = Service(name: string, cost: int, userId: nat)

  /** A service_users row (a booking); userId is the requester (the customer). */
  datatype Booking = Booking(serviceId: nat, vehicleId: nat, userId: nat, createdAt: Timestamp)

  // Response payloads, one shape per handler.

  datatype Profile = Profile(id: nat, name: string, role: string, email: string, location: string)

  datatype VehicleRow = VehicleRow(
    id: nat, make: string, model: string, year: int, registration: string,
    transmission: string, fuelType: string)

  /** One entry of the publisher's own list: the service's id and its stored record. */
  datatype ServiceRow = ServiceRow(id: nat, service: Service)

  datatype CatalogRow = CatalogRow(
    serviceId: nat, serviceName: string, serviceCost: int,
    userId: nat, userName: string, userEmail: string, userLocation: string)

  datatype BookingRow = BookingRow(
    serviceId: nat, serviceName: string, serviceCost: int,
    vehicleId: nat, vehicleModel: string, vehicleYear: int,
    mechanicName: string, mechanicEmail: string, mechanicLocation: string)

  datatype RequestRow = RequestRow(
    serviceRequestId: nat, serviceName: string, serviceCost: int,
    vehicleModel: string, vehicleYear: int, customerName: string, customerEmail: string,
    vehicleRegistration: string, createdAt: Timestamp)

  datatype Body =
    | Msg(msg: string)              // {"msg": ...}
    | Message(message: string)      // {"message": ...}
    | InternalError                 // {"msg": <storage exception text>}
    | LoggedIn(accessToken: AccessToken, user: Profile)
    | Me(name: string, email: string)
    | UpdatedUser(user: Profile)
    | VehicleList(vehicles: seq<VehicleRow>)
    | ServiceList(services: seq<ServiceRow>)
    | CatalogList(catalog: seq<CatalogRow>)
    | BookingList(bookings: seq<BookingRow>)
    | RequestList(requests: seq<RequestRow>)

  datatype Response = Response(status: nat, body: Body)
}

=== FILE: services.dfy ===
/**
 * The service catalog (mechanics publish services) and the booking ledger
 * (customers book a service for a vehicle), with their three joined views.
 */
module Services {
  import opened Records
  import opened Db

  datatype ServiceRequest = ServiceRequest(name: Option<string>, cost: Option<int>)

  datatype BookingRequest = BookingRequest(serviceId: Option<int>, vehicleId: Option<int>)

  // ---------------------------------------------------------------- catalog

  /**
   * storeFails stands for the outcome of the commit, which the model does not
   * compute: when it fails the session rolls back and the handler answers 500.
   */
  method AddService(db: Store, principal: nat, req: ServiceRequest, storeFails: bool) returns (r: Response)
    requires db.Valid()
    modifies db
    ensures db.Valid()
    ensures !Truthy(req.name) || !TruthyInt(req.cost) ==>
      r == Response(400, Msg("Missing fields")) && unchanged(db)
    ensures Truthy(req.name) && TruthyInt(req.cost) && storeFails ==>
      r == Response(500, InternalError) && unchanged(db)
    ensures Truthy(req.name) && TruthyInt(req.cost) && !storeFails ==>
      && r == Response(201, Msg("Service added successfully"))
      && db.services == Insert(old(db.services), Service(req.name.value, req.cost.value, principal))
      && db.users == old(db.users) && db.vehicles == old(db.vehicles) && db.bookings == old(db.bookings)
  {
    if !Truthy(req.name) || !TruthyInt(req.cost) {
      return Response(400, Msg("Missing fields"));
    }
    if storeFails {
      return Response(500, InternalError);
    }
    var _ := db.CommitService(Service(req.name.value, req.cost.value, principal));
    r := Response(201, Msg("Service added successfully"));
  }

  function GetServices(services: IdTable<Service>, principal: nat): (r: Response)
    ensures r.status == 200 && r.body.ServiceList?
    ensures var rows := r.body.services;
      forall i :: 0 <= i < |rows| ==>
        rows[i].id in services.rows && rows[i].service == services.rows[rows[i].id]
        && rows[i].service.userId == principal
    ensures var rows := r.body.services;
      forall k :: k in services.rows && services.rows[k].userId == principal ==>
        exists i :: 0 <= i < |rows| && rows[i].id == k
    ensures var rows := r.body.services;
      forall i, j :: 0 <= i < j < |rows| ==> rows[i].id < rows[j].id
  {
    var ids := Select(services, (k: nat, s: Service) => s.userId == principal);
    var rows := seq(|ids|, i requires 0 <= i < |ids| => ServiceRow(ids[i], services.rows[ids[i]]));
    assert forall i :: 0 <= i < |ids| ==> rows[i].id == ids[i];
    Response(200, ServiceList(rows))
  }

  function CatalogRowOf(id: nat, s: Service, publisher: User): CatalogRow
  {
    CatalogRow(id, s.name, s.cost, s.userId, publisher.name, publisher.email, publisher.location)
  }

  /** The public catalog: every service joined with its publisher, built row by row. */
  method GetAllServices(services: IdTable<Service>, users: IdTable<User>) returns (r: Response)
    ensures r.status == 200 && r.body.CatalogList?
    ensures var rows := r.body.catalog;
      forall i :: 0 <= i < |rows| ==>
        && rows[i].serviceId in services.rows
        && var s := services.rows[rows[i].serviceId];
           && rows[i].serviceName == s.name && rows[i].serviceCost == s.cost
           && rows[i].userId == s.userId && s.userId in users.rows
           && rows[i].userName == users.rows[s.userId].name
           && rows[i].userEmail == users.rows[s.userId].email
           && rows[i].userLocation == users.rows[s.userId].location
    ensures var rows := r.body.catalog;
      forall k :: k in services.rows && services.rows[k].userId in users.rows ==>
        exists i :: 0 <= i < |rows| && rows[i].serviceId == k
    ensures var rows := r.body.catalog;
      forall i, j :: 0 <= i < j < |rows| ==> rows[i].serviceId < rows[j].serviceId
  {
    // The inner join of services with users on the publisher id.
    var joined := Select(services, (k: nat, s: Service) => s.userId in users.rows);
    var result: seq<CatalogRow> := [];
    var i := 0;
    while i < |joined|
      invariant 0 <= i <= |joined|
      invariant |result| == i
      invariant forall j :: 0 <= j < i ==>
        var s := services.rows[joined[j]];
        result[j] == CatalogRowOf(joined[j], s, users.rows[s.userId])
    {
      var s := services.rows[joined[i]];
      result := result + [CatalogRowOf(joined[i], s, users.rows[s.userId])];
      i := i + 1;
    }
    r := Response(200, CatalogList(result));
  }

  // ---------------------------------------------------------------- bookings

  method AddServiceUser(db: Store, principal: nat, req: BookingRequest, now: Timestamp) returns (r: Response)
    requires db.Valid()
    modifies db
    ensures db.Valid()
    ensures !TruthyInt(req.serviceId) || !TruthyInt(req.vehicleId) ==>
      r == Response(400, Msg("Missing service_id or vehicle_id")) && unchanged(db)
    ensures (TruthyInt(req.serviceId) && TruthyInt(req.vehicleId)
             && Get(old(db.services), req.serviceId.value).None?) ==>
      r == Response(404, Msg("Service not found")) && unchanged(db)
    ensures (TruthyInt(req.serviceId) && TruthyInt(req.vehicleId)
             && Get(old(db.services), req.serviceId.value).Some?
             && Get(old(db.vehicles), req.vehicleId.value).None?) ==>
      r == Response(404, Msg("Vehicle not found")) && unchanged(db)
    ensures (TruthyInt(req.serviceId) && TruthyInt(req.vehicleId)
             && Get(old(db.services), req.serviceId.value).Some?
             && Get(old(db.vehicles), req.vehicleId.value).Some?) ==>
      var sid := req.serviceId.value as nat;
      var vid := req.vehicleId.value as nat;
      && (old(Booked(db.bookings.rows, sid, vid, principal)) ==>
            r == Response(400, Msg("Service user already exists")) && unchanged(db))
      && (!old(Booked(db.bookings.rows, sid, vid, principal)) ==>
            && r == Response(201, Msg("Service user added successfully"))
            && db.bookings == Insert(old(db.bookings), Booking(sid, vid, principal, now))
            && db.users == old(db.users) && db.vehicles == old(db.vehicles) && db.services == old(db.services))
  {
    if !TruthyInt(req.serviceId) || !TruthyInt(req.vehicleId) {
      return Response(400, Msg("Missing service_id or vehicle_id"));
    }
    var service := Get(db.services, req.serviceId.value);
    var vehicle := Get(db.vehicles, req.vehicleId.value);
    if service.None? {
      return Response(404, Msg("Service not found"));
    }
    if vehicle.None? {
      return Response(404, Msg("Vehicle not found"));
    }
    // No check that the principal owns the vehicle.
    var booking := Booking(req.serviceId.value as nat, req.vehicleId.value as nat, principal, now);
    var id := db.CommitBooking(booking);
    if id.None? {
      return Response(400, Msg("Service user already exists"));
    }
    r := Response(201, Msg("Service user added successfully"));
  }

  /** Booking the same service for the same vehicle twice: the second request is refused and adds no row. */
  method BookTwice(db: Store, principal: nat, req: BookingRequest, now1: Timestamp, now2: Timestamp)
    returns (first: Response, second: Response)
    requires db.Valid()
    modifies db
    ensures db.Valid()
    ensures first.status == 201 ==>
      second == Response(400, Msg("Service user already exists")) && |db.bookings.rows| == |old(db.bookings.rows)| + 1
  {
    first := AddServiceUser(db, principal, req, now1);
    ghost var afterFirst := db.bookings;
    if first.status == 201 {
      var sid := req.serviceId.value as nat;
      var vid := req.vehicleId.value as nat;
      assert afterFirst.rows[old(db.bookings.next)] == Booking(sid, vid, principal, now1);
      assert Booked(afterFirst.rows, sid, vid, principal);
      assert |afterFirst.rows| == |old(db.bookings.rows)| + 1;
    }
    second := AddServiceUser(db, principal, req, now2);
  }

  /** Each booking listed by id is stored under its own triple. */
  lemma BookedByEach(bookings: map<nat, Booking>, ids: seq<nat>, principal: nat)
    requires forall i :: 0 <= i < |ids| ==> ids[i] in bookings && bookings[ids[i]].userId == principal
    ensures forall i :: 0 <= i < |ids| ==>
      Booked(bookings, bookings[ids[i]].serviceId, bookings[ids[i]].vehicleId, principal)
  {
  }

  /** The inner join a customer's listing needs: the booked service, the vehicle and the service's publisher exist. */
  predicate JoinsWithMechanic(b: Booking, services: IdTable<Service>, vehicles: IdTable<Vehicle>, users: IdTable<User>)
  {
    b.serviceId in services.rows && b.vehicleId in vehicles.rows && services.rows[b.serviceId].userId in users.rows
  }

  function BookingRowOf(b: Booking, s: Service, v: Vehicle, mechanic: User): BookingRow
  {
    BookingRow(b.serviceId, s.name, s.cost, b.vehicleId, v.model, v.year,
               mechanic.name, mechanic.email, mechanic.location)
  }

  /** The principal's own bookings; the mechanic_* fields describe the publisher of the booked service. */
  function GetServiceUsers(bookings: IdTable<Booking>, services: IdTable<Service>, vehicles: IdTable<Vehicle>,
                           users: IdTable<User>, principal: nat): (r: Response)
    ensures r.status == 200 && r.body.BookingList?
    ensures var rows := r.body.bookings;
      forall i :: 0 <= i < |rows| ==>
        && Booked(bookings.rows, rows[i].serviceId, rows[i].vehicleId, principal)
        && rows[i].serviceId in services.rows && rows[i].vehicleId in vehicles.rows
        && var s := services.rows[rows[i].serviceId];
           var v := vehicles.rows[rows[i].vehicleId];
           && rows[i].serviceName == s.name && rows[i].serviceCost == s.cost
           && rows[i].vehicleModel == v.model && rows[i].vehicleYear == v.year
           && s.userId in users.rows
           && rows[i].mechanicName == users.rows[s.userId].name
           && rows[i].mechanicEmail == users.rows[s.userId].email
           && rows[i].mechanicLocation == users.rows[s.userId].location
    ensures var rows := r.body.bookings;
      forall k :: (k in bookings.rows && bookings.rows[k].userId == principal
                   && JoinsWithMechanic(bookings.rows[k], services, vehicles, users)) ==>
        exists i :: 0 <= i < |rows| && rows[i].serviceId == bookings.rows[k].serviceId
          && rows[i].vehicleId == bookings.rows[k].vehicleId
    ensures var rows := r.body.bookings;
      UniqueBookings(bookings.rows) ==>
        forall i, j :: 0 <= i < j < |rows| ==>
          rows[i].serviceId != rows[j].serviceId || rows[i].vehicleId != rows[j].vehicleId
  {
    var ids := Select(bookings, (k: nat, b: Booking) =>
      b.userId == principal && JoinsWithMechanic(b, services, vehicles, users));
    var rows := seq(|ids|, i requires 0 <= i < |ids| =>
      var b := bookings.rows[ids[i]];
      var s := services.rows[b.serviceId];
      BookingRowOf(b, s, vehicles.rows[b.vehicleId], users.rows[s.userId]));
    assert forall i :: 0 <= i < |ids| ==>
      rows[i].serviceId == bookings.rows[ids[i]].serviceId && rows[i].vehicleId == bookings.rows[ids[i]].vehicleId;
    BookedByEach(bookings.rows, ids, principal);
    Response(200, BookingList(rows))
  }

  /** The inner join a mechanic's listing needs: the booked service, the vehicle and the requesting customer exist. */
  predicate JoinsWithCustomer(b: Booking, services: IdTable<Service>, vehicles: IdTable<Vehicle>, users: IdTable<User>)
  {
    b.serviceId in services.rows && b.vehicleId in vehicles.rows && b.userId in users.rows
  }

  function RequestRowOf(id: nat, b: Booking, s: Service, v: Vehicle, customer: User): RequestRow
  {
    RequestRow(id, s.name, s.cost, v.model, v.year, customer.name, customer.email, v.registration, b.createdAt)
  }

  /** Every row shown to the mechanic describes a booking of one of the mechanic's services and its requester. */
  ghost predicate ShowsRequest(row: RequestRow, bookings: IdTable<Booking>, services: IdTable<Service>,
                               vehicles: IdTable<Vehicle>, users: IdTable<User>, mechanic: nat)
  {
    && row.serviceRequestId in bookings.rows
    && var b := bookings.rows[row.serviceRequestId];
       && b.serviceId in services.rows && services.rows[b.serviceId].userId == mechanic
       && b.vehicleId in vehicles.rows && b.userId in users.rows
       && row.serviceName == services.rows[b.serviceId].name
       && row.serviceCost == services.rows[b.serviceId].cost
       && row.vehicleModel == vehicles.rows[b.vehicleId].model
       && row.vehicleYear == vehicles.rows[b.vehicleId].year
       && row.vehicleRegistration == vehicles.rows[b.vehicleId].registration
       && row.customerName == users.rows[b.userId].name
       && row.customerEmail == users.rows[b.userId].email
       && row.createdAt == b.createdAt
  }

  /** The second query: bookings whose service id is among the mechanic's, joined with service, vehicle and requester. */
  function RequestRows(bookings: IdTable<Booking>, services: IdTable<Service>, vehicles: IdTable<Vehicle>,
                       users: IdTable<User>, mechanic: nat, serviceIds: seq<nat>): (rows: seq<RequestRow>)
    requires forall sid :: sid in serviceIds <==> sid in services.rows && services.rows[sid].userId == mechanic
    ensures forall i :: 0 <= i < |rows| ==> ShowsRequest(rows[i], bookings, services, vehicles, users, mechanic)
    ensures forall k :: (k in bookings.rows && JoinsWithCustomer(bookings.rows[k], services, vehicles, users)
                         && services.rows[bookings.rows[k].serviceId].userId == mechanic) ==>
      exists i :: 0 <= i < |rows| && rows[i].serviceRequestId == k
    ensures forall i, j :: 0 <= i < j < |rows| ==> rows[i].serviceRequestId < rows[j].serviceRequestId
  {
    var ids := Select(bookings, (k: nat, b: Booking) =>
      b.serviceId in serviceIds && JoinsWithCustomer(b, services, vehicles, users));
    var rows := seq(|ids|, i requires 0 <= i < |ids| =>
      var b := bookings.rows[ids[i]];
      RequestRowOf(ids[i], b, services.rows[b.serviceId], vehicles.rows[b.vehicleId], users.rows[b.userId]));
    RequestRowsShow(bookings, services, vehicles, users, mechanic, serviceIds, ids, rows);
    rows
  }

  lemma RequestRowsShow(bookings: IdTable<Booking>, services: IdTable<Service>, vehicles: IdTable<Vehicle>,
                        users: IdTable<User>, mechanic: nat, serviceIds: seq<nat>, ids: seq<nat>, rows: seq<RequestRow>)
    requires forall sid :: sid in serviceIds <==> sid in services.rows && services.rows[sid].userId == mechanic
    requires forall i :: 0 <= i < |ids| ==>
      && ids[i] in bookings.rows
      && bookings.rows[ids[i]].serviceId in serviceIds
      && bookings.rows[ids[i]].vehicleId in vehicles.rows
      && bookings.rows[ids[i]].userId in users.rows
    requires |rows| == |ids|
    requires forall i :: 0 <= i < |ids| ==>
      var b := bookings.rows[ids[i]];
      rows[i] == RequestRowOf(ids[i], b, services.rows[b.serviceId], vehicles.rows[b.vehicleId], users.rows[b.userId])
    ensures forall i :: 0 <= i < |rows| ==> rows[i].serviceRequestId == ids[i]
    ensures forall i :: 0 <= i < |rows| ==> ShowsRequest(rows[i], bookings, services, vehicles, users, mechanic)
  {
  }

  /**
   * The bookings of the services the principal publishes; the customer_* fields
   * describe the requester of each booking. A principal with no services gets 404.
   */
  function GetMechanicServiceRequests(bookings: IdTable<Booking>, services: IdTable<Service>,
                                      vehicles: IdTable<Vehicle>, users: IdTable<User>, mechanic: nat): (r: Response)
    ensures r.status == 404 <==> forall k :: k in services.rows ==> services.rows[k].userId != mechanic
    ensures r.status == 404 ==> r.body == Message("No services found for this mechanic")
    ensures r.status != 404 ==> r.status == 200 && r.body.RequestList?
    ensures r.body.RequestList? ==>
      var rows := r.body.requests;
      forall i :: 0 <= i < |rows| ==> ShowsRequest(rows[i], bookings, services, vehicles, users, mechanic)
    ensures r.body.RequestList? ==>
      var rows := r.body.requests;
      forall k :: (k in bookings.rows && JoinsWithCustomer(bookings.rows[k], services, vehicles, users)
                   && services.rows[bookings.rows[k].serviceId].userId == mechanic) ==>
        exists i :: 0 <= i < |rows| && rows[i].serviceRequestId == k
    ensures r.body.RequestList? ==>
      var rows := r.body.requests;
      forall i, j :: 0 <= i < j < |rows| ==> rows[i].serviceRequestId < rows[j].serviceRequestId
  {
    var mine := Select(services, (k: nat, s: Service) => s.userId == mechanic);
    if mine == [] then
      Response(404, Message("No services found for this mechanic"))
    else
      assert mine[0] in services.rows && services.rows[mine[0]].userId == mechanic;
      Response(200, RequestList(RequestRows(bookings, services, vehicles, users, mechanic, mine)))
  }
}

=== FILE: store.dfy ===
/**
 * The relational store behind the handlers: four tables keyed by ids that an
 * autoincrement counter hands out, the ordered filter that every query is
 * built from, and the session object through which the handlers write.
 */
module Db {
  import opened Records

  datatype Table<R> = Table(rows: map<nat, R>, next: nat)

  /** Ids start at 1 and every stored id is below the counter, so the counter is always fresh. */
  type IdTable<R> = t: Table<R> | 1 <= t.next && forall k :: k in t.rows ==> 1 <= k < t.next
    witness Table(map[], 1)

  function EmptyTable<R>(): (t: IdTable<R>)
    ensures t.rows == map[]
  {
    Table(map[], 1)
  }

  /** Adding a row: it gets the counter's id, which no stored row holds, and the counter moves on. */
  function Insert<R>(t: IdTable<R>, r: R): (u: IdTable<R>)
    ensures t.next !in t.rows
    ensures u.rows.Keys == t.rows.Keys + {t.next} && u.rows[t.next] == r
    ensures forall k :: k in t.rows ==> u.rows[k] == t.rows[k]
    ensures u.next > t.next
  {
    Table(t.rows[t.next := r], t.next + 1)
  }

  /** Query.get(id) for an integer id taken from a request body; ids outside SQLite's 64-bit range are not modelled. */
  function Get<R>(t: IdTable<R>, id: int): (found: Option<R>)
    ensures found.Some? <==> id >= 1 && id as nat in t.rows
    ensures found.Some? ==> found.value == t.rows[id as nat]
  {
    if id >= 0 && id as nat in t.rows then Some(t.rows[id as nat]) else None
  }

  predicate Increasing(ids: seq<nat>)
  {
    forall i, j :: 0 <= i < j < |ids| ==> ids[i] < ids[j]
  }

  /** The ids below n whose rows satisfy keep, in ascending order. */
  function SelectBelow<R>(rows: map<nat, R>, n: nat, keep: (nat, R) -> bool): (ids: seq<nat>)
    ensures forall i :: 0 <= i < |ids| ==> ids[i] < n && ids[i] in rows && keep(ids[i], rows[ids[i]])
    ensures forall k :: k < n && k in rows && keep(k, rows[k]) ==> k in ids
    ensures Increasing(ids)
    decreases n
  {
    if n == 0 then []
    else
      var earlier := SelectBelow(rows, n - 1, keep);
      if n - 1 in rows && keep(n - 1, rows[n - 1]) then earlier + [n - 1] else earlier
  }

  /**
   * A filtered query over one table (the WHERE clause and, for a join, the
   * existence of the joined records): exactly the ids whose rows satisfy keep,
   * each once, in ascending id order (the order this model fixes for every listing).
   */
  function Select<R>(t: IdTable<R>, keep: (nat, R) -> bool): (ids: seq<nat>)
    ensures forall i :: 0 <= i < |ids| ==> ids[i] in t.rows && keep(ids[i], t.rows[ids[i]])
    ensures forall k :: k in t.rows && keep(k, t.rows[k]) ==> k in ids
    ensures Increasing(ids)
  {
    SelectBelow(t.rows, t.next, keep)
  }

  /** A booking row with this (service, vehicle, requester) triple is stored. */
  predicate Booked(bookings: map<nat, Booking>, serviceId: nat, vehicleId: nat, userId: nat)
  {
    exists k :: k in bookings && bookings[k].serviceId == serviceId
      && bookings[k].vehicleId == vehicleId && bookings[k].userId == userId
  }

  /** No two booking rows share their (service, vehicle, requester) triple. */
  ghost predicate UniqueBookings(bookings: map<nat, Booking>)
  {
    forall k1, k2 :: k1 in bookings && k2 in bookings && k1 != k2 ==>
      bookings[k1].serviceId != bookings[k2].serviceId
      || bookings[k1].vehicleId != bookings[k2].vehicleId
      || bookings[k1].userId != bookings[k2].userId
  }

  /**
   * The database session. Each write is all-or-nothing: a method either
   * commits its one change or leaves every table as it was.
   */
  class Store {
    var users: IdTable<User>
    var vehicles: IdTable<Vehicle>
    var services: IdTable<Service>
    var bookings: IdTable<Booking>

    /** Every booking refers to a stored service and vehicle, and no booking is stored twice. */
    ghost predicate Valid()
      reads this
    {
      && (forall k :: k in bookings.rows ==>
            bookings.rows[k].serviceId in services.rows && bookings.rows[k].vehicleId in vehicles.rows)
      && UniqueBookings(bookings.rows)
    }

    constructor ()
      ensures Valid()
      ensures users.rows == map[] && vehicles.rows == map[]
      ensures services.rows == map[] && bookings.rows == map[]
    {
      users := EmptyTable();
      vehicles := EmptyTable();
      services := EmptyTable();
      bookings := EmptyTable();
    }

    method CommitUser(u: User) returns (id: nat)
      requires Valid()
      modifies this
      ensures Valid()
      ensures id == old(users.next) && id !in old(users.rows)
      ensures users == Insert(old(users), u)
      ensures vehicles == old(vehicles) && services == old(services) && bookings == old(bookings)
    {
      id := users.next;
      users := Insert(users, u);
    }

    /** Writes back the changed fields of an existing user. */
    method CommitUserUpdate(id: nat, u: User)
      requires Valid() && id in users.rows
      modifies this
      ensures Valid()
      ensures users == old(users.(rows := users.rows[id := u]))
      ensures vehicles == old(vehicles) && services == old(services) && bookings == old(bookings)
    {
      users := users.(rows := users.rows[id := u]);
    }

    method CommitVehicle(v: Vehicle) returns (id: nat)
      requires Valid()
      modifies this
      ensures Valid()
      ensures id == old(vehicles.next) && id !in old(vehicles.rows)
      ensures vehicles == Insert(old(vehicles), v)
      ensures users == old(users) && services == old(services) && bookings == old(bookings)
    {
      id := vehicles.next;
      vehicles := Insert(vehicles, v);
    }

    method CommitService(s: Service) returns (id: nat)
      requires Valid()
      modifies this
      ensures Valid()
      ensures id == old(services.next) && id !in old(services.rows)
      ensures services == Insert(old(services), s)
      ensures users == old(users) && vehicles == old(vehicles) && bookings == old(bookings)
    {
      id := services.next;
      services := Insert(services, s);
    }

    /**
     * Adds a booking unless the uniqueness rule on (service, vehicle,
     * requester) rejects it, in which case the transaction rolls back.
     * The caller has looked up the service and the vehicle.
     */
    method CommitBooking(b: Booking) returns (id: Option<nat>)
      requires Valid()
      requires b.serviceId in services.rows && b.vehicleId in vehicles.rows
      modifies this
      ensures Valid()
      ensures id.None? <==> old(Booked(bookings.rows, b.serviceId, b.vehicleId, b.userId))
      ensures id.None? ==> unchanged(this)
      ensures id.Some? ==> id.value == old(bookings.next) && bookings == Insert(old(bookings), b)
      ensures users == old(users) && vehicles == old(vehicles) && services == old(services)
    {
      if Booked(bookings.rows, b.serviceId, b.vehicleId, b.userId) {
        id := None;
      } else {
        id := Some(bookings.next);
        bookings := Insert(bookings, b);
      }
    }
  }
}

=== FILE: text.dfy ===
/**
 * The two conversions between integers and their decimal text that the
 * handlers rely on: Python's str() of a non-negative id and Python's int()
 * of a string (restricted to an optional sign followed by ASCII digits).
 */
module Text {
  import opened Records

  predicate IsDigit(c: char)
  {
    '0' <= c <= '9'
  }

  predicate AllDigits(s: string)
  {
    forall i :: 0 <= i < |s| ==> IsDigit(s[i])
  }

  function DigitChar(d: nat): (c: char)
    requires d < 10
    ensures IsDigit(c) && c as int - '0' as int == d
  {
    ('0' as int + d) as char
  }

  /** str(n) for n >= 0: at least one digit, and no leading zero unless n is 0. */
  function Decimal(n: nat): (s: string)
    ensures |s| >= 1 && AllDigits(s)
    ensures |s| > 1 ==> s[0] != '0'
    decreases n
  {
    if n < 10 then [DigitChar(n)] else Decimal(n / 10) + [DigitChar(n % 10)]
  }

  /** The value of a run of decimal digits, most significant first. */
  function DigitsValue(s: string): nat
    requires AllDigits(s)
    decreases |s|
  {
    if s == [] then 0
    else DigitsValue(s[..|s| - 1]) * 10 + (s[|s| - 1] as int - '0' as int)
  }

  /** The length of the optional leading sign of s: 1 for '+' or '-', otherwise 0. */
  function SignLength(s: string): nat
  {
    if |s| > 0 && (s[0] == '+' || s[0] == '-') then 1 else 0
  }

  /** int(s): an optional '+' or '-' followed by one or more digits; anything else is rejected. */
  function ParseInt(s: string): (r: Option<int>)
    ensures r.Some? <==> |s| > SignLength(s) && AllDigits(s[SignLength(s)..])
    ensures forall i :: SignLength(s) <= i < |s| && !IsDigit(s[i]) ==> r.None?
    // The two sign clauses are consequences of the value clause below, stated for the reader.
    ensures r.Some? && s[0] != '-' ==> r.value >= 0
    ensures r.Some? && s[0] == '-' ==> r.value <= 0
    ensures r.Some? ==>
      var digits := s[SignLength(s)..];
      r.value == (if s[0] == '-' then -(DigitsValue(digits) as int) else DigitsValue(digits))
  {
    if |s| > 0 && (s[0] == '+' || s[0] == '-') then
      var digits := s[1..];
      if digits != [] && AllDigits(digits) then
        var magnitude: int := DigitsValue(digits);
        Some(if s[0] == '-' then -magnitude else magnitude)
      else None
    else if s != [] && AllDigits(s) then Some(DigitsValue(s))
    else None
  }

  lemma {:induction false} DigitsValueOfDecimal(n: nat)
    ensures DigitsValue(Decimal(n)) == n
    decreases n
  {
    var s := Decimal(n);
    if n >= 10 {
      DigitsValueOfDecimal(n / 10);
      assert s[..|s| - 1] == Decimal(n / 10);
    }
  }

  /** int(str(n)) == n: parsing undoes printing. */
  lemma ParseDecimal(n: nat)
    ensures ParseInt(Decimal(n)) == Some(n)
  {
    DigitsValueOfDecimal(n);
  }

  /** A signed decimal parses to its negation. */
  lemma ParseNegativeDecimal(n: nat)
    ensures ParseInt("-" + Decimal(n)) == Some(-(n as int))
  {
    var s := "-" + Decimal(n);
    assert s[1..] == Decimal(n);
    DigitsValueOfDecimal(n);
  }

  /** A '+' followed by the digits of n parses to n. */
  lemma ParsePlusDecimal(n: nat)
    ensures ParseInt("+" + Decimal(n)) == Some(n)
  {
    var s := "+" + Decimal(n);
    assert s[1..] == Decimal(n);
    DigitsValueOfDecimal(n);
  }

  /** Two ids print the same only if they are the same id. */
  lemma DecimalInjective(a: nat, b: nat)
    ensures Decimal(a) == Decimal(b) ==> a == b
  {
    ParseDecimal(a);
    ParseDecimal(b);
  }
}
